=== FILE: README.md ===
# Terminal gateway: host authorization and connection lifecycle

This project models the gateway process of the terminal gateway (`server.js`). A browser
terminal talks to the gateway over a Socket.IO channel. The gateway checks the requested host
against an allowlist. It then dials SSH (through the ssh2 library) or Telnet (through a raw
`net.Socket`) and relays input, window resizes and output between the two sides.

The model has two parts:

- **Host authorization** (`HostPolicy`): `isHostAllowed` as a pure predicate over a parsed
  configuration record, plus the minimal fallback configuration of `loadConfig`.
- **Connection registry and lifecycle** (`Manager`, `Dispatch`): `ConnectionManager` and the
  per-client handlers as one sequential, event-driven state machine. The state holds:
  - the registry `connections`, which maps a client id to `{type, connection}`;
  - the library connection objects the gateway has built (`adapters`), with the library's
    `destroyed` flags and the phase of each;
  - the `input`/`resize` handlers installed on each client socket, in installation order;
  - the log of events emitted to clients (`connection-status`, `data`, `error`), with the
    exact message texts;
  - the log of calls made into the libraries (dial, shell, write, setWindow, end, destroy);
  - the exception, if any, that escaped a handler. After that, the model ignores every event.

  Inputs are the client messages `connect-ssh`, `connect-telnet`, `input`, `resize`,
  `disconnect` and `force-disconnect`. The libraries' callbacks are also inputs:
  - SSH: `ready`, shell success/failure, stream `data`/stderr `data`, stream `close`,
    connection `error` and `end`;
  - Telnet: the connect callback, `data`, `error`, `close` and `timeout`.

Modules: `Optional` (absent values), `HostPolicy`, `Channel` (messages, events, library calls),
`Manager` (the connection manager and its callbacks), `Dispatch` (the `io.on('connection')`
handlers, `Step` and `Run` over traces), `Observations` (lemmas about the code's gaps).

`Manager.Inv` is the well-formedness invariant. Every transition function, including
`Dispatch.Step`, carries `Inv(s) ==> Inv(r)`, and `Dispatch.RunPreservesInv` extends this to whole traces. Under the
invariant, every registry entry points at a live object of its own client and kind. That
object's SSH shell is open and not destroyed, or its Telnet socket is connected and not closed.
Its forwarding handlers are installed. Each connection has at most one handler of each kind.

## Behaviour of the code as written

The code differs from a session manager that tears down exactly once. The model follows the
code. Each bullet below names the lemma that states it, or says that it is read from the code
alone. None of them is a guarantee.

- A second connect for the same client overwrites the registry entry (`Map.set`). The first
  connection is neither closed nor forgotten: its handlers keep forwarding input to it.
  (`Observations.SecondConnectLeavesFirstLive`)
- `disconnect` during an SSH dial, by a client with no earlier session, finds no entry,
  because the entry is added only once the shell opens. It cancels nothing, and the later
  `ready` still reports `connected`. (`Observations.DisconnectDoesNotCancelDial`) A client with
  an earlier SSH session gets that session ended instead, and the dial still goes on.
  (`Observations.DisconnectDuringDialEndsEarlierSession`)
- `connected` is reported when the SSH transport is ready, before the shell opens.
  (`Observations.ConnectedBeforeShell`)
- Stream `close` and connection `end` each report `disconnected`, so a client can see it twice.
  (`Observations.DisconnectedReportedTwice`)
- A stale stream `close` or Telnet `close` deletes whatever entry its client now has, even a
  newer connection's entry. (`Observations.StaleCloseDeletesNewerEntry`,
  `Observations.StaleTelnetCloseDeletesNewerEntry`)
- `disconnect` only `end()`s an SSH stream and does not destroy it. The `input` handler checks
  only `destroyed`, so the next input after `disconnect` still reaches `stream.write`.
  (`Observations.InputAfterSshDisconnectStillWritten`)
- The Telnet `input` handler is installed before the connect callback. Input sent while the
  socket is still connecting is written to it. (`Observations.TelnetInputBeforeConnect`)
- Unlike the SSH path, `createTelnetConnection` has no `try`. A port outside 0..65535 makes
  `telnetSocket.connect` throw before any handler is registered, and the exception escapes
  the `connect-telnet` handler. (`Observations.TelnetBadPortHalts`, `Manager.CreateTelnet`)
- `allowPrivateNetworks` (like `maxConnectionTime` and `connectionTimeout`) is never consulted.
  (`HostPolicy.UnusedSecurityFieldsIgnored`)
- No code calls `setTimeout` on the Telnet socket, so the library never delivers `timeout`.
  This is read from the code alone; no lemma states it. The model keeps the handler as an
  ordinary event.

## Model

| member | source | states |
|---|---|---|
| `HostPolicy.IsHostAllowed` | server.js:56-66 | With validation off or absent, every host and protocol is allowed. With it on, the result is true exactly when some allowlist entry has exactly that host and lists the protocol. An absent `allowedHosts` denies. |
| `HostPolicy.Find` | server.js:61-63 | `find` returns nothing exactly when no entry matches. Otherwise it returns the first matching entry. |
| `HostPolicy.MinimalDefaultDeniesAll` | server.js:39-47 | The fallback configuration (empty allowlist, validation required) denies every host for every protocol. |
| `HostPolicy.UnusedSecurityFieldsIgnored` | server.js:56-66 | Changing `allowPrivateNetworks`, `maxConnectionTime` or `connectionTimeout` never changes a verdict. |
| `HostPolicy.AllowlistMonotone` | server.js:61-65 | Appending an allowlist entry never revokes a permission. |
| `HostPolicy.SingleSshHostScenario` | server.js:56-66 | With allowlist `[{h1, ["ssh"]}]`, SSH to h1 is allowed, but Telnet to h1 and SSH to another host are refused. |
| `Manager.InitInv` | server.js:71-73 | The empty manager satisfies the invariant. |
| `Manager.CreateSsh` | server.js:75-136 | Builds exactly one fresh client object for the caller and leaves the registry unchanged. The object is dialling, or inert when `connect` threw. It dials the request's host on the port, defaulting to 22 when missing or 0. When `connect` throws, it emits one "Failed to connect" error instead and dials nothing. Keeps the invariant. |
| `Manager.OnSshReady` | server.js:79-83 | On `ready`, emits `connected`/ssh to the owner, requests a shell, and leaves the registry untouched. Outside the dialing phase it changes nothing. |
| `Manager.OnShell` | server.js:83-114 | On shell success, the owner's entry becomes this SSH connection, replacing any previous entry. Its input and resize handlers are installed and nothing is emitted. On failure, one "Failed to start shell" error is emitted and the registry is unchanged. |
| `Manager.OnStreamData` | server.js:93-99 | stdout and stderr data of an open stream that is not destroyed reach the owner as one `data` event. No other state changes. |
| `Manager.OnStreamClose` | server.js:89-92 | Emits `disconnected` to the owner. The registry afterwards is exactly the old one without the owner's key: nothing is added, and other clients' entries are unchanged. The stream becomes non-writable. |
| `Manager.OnSshError` | server.js:115-117 | Emits one "SSH connection failed" error to the owner and changes nothing else. |
| `Manager.OnSshEnd` | server.js:118-122 | Emits `disconnected` to the owner. The registry afterwards is exactly the old one without the owner's key. |
| `Manager.CreateTelnet` | server.js:138-177 | When the port is in range, builds a fresh socket for the caller and dials the host on the port, defaulting to 23. It installs the `input` handler at once and no `resize` handler. When the port is outside 0..65535, it records the escaped exception and dials and installs nothing. In both cases the registry is unchanged and nothing is emitted. |
| `Manager.OnTelnetConnect` | server.js:144-149 | Emits `connected`/telnet and makes this socket the owner's entry, replacing any previous one. |
| `Manager.OnTelnetData` | server.js:151-153 | Data of a connected socket that is not destroyed reaches the owner unchanged. |
| `Manager.OnTelnetError` | server.js:155-158 | Emits one "Telnet error" event. The registry is unchanged and the socket is no longer writable. |
| `Manager.OnTelnetClose` | server.js:160-164 | Emits `disconnected` to the owner. The registry afterwards is exactly the old one without the owner's key. |
| `Manager.OnTelnetTimeout` | server.js:166-170 | Emits "Telnet connection timeout" and destroys the socket. The registry is unchanged. |
| `Manager.Writes` | server.js:103-107 | An input message from a client is written to each connection that has a handler of that client and whose stream or socket is not destroyed. Nothing is written for other clients' handlers or for destroyed streams. |
| `Manager.Resizes` | server.js:109-113 | A resize message gives a window change for each of that client's resize handlers whose stream is not destroyed, and for no others. |
| `Manager.OnInput` | server.js:103-176 | Input only appends writes, each to a non-destroyed SSH shell or Telnet socket owned by the sender. Every handler of the sender whose target is not destroyed does get the write, and no connection gets two. The registry, objects and events are unchanged. |
| `Manager.OnResize` | server.js:109-113 | Resize only appends window changes. Each goes to an open SSH shell of the sender that is not destroyed, never to a Telnet socket or to an SSH connection whose shell is not open. Every resize handler of the sender whose stream is not destroyed does get one, and no shell gets two. |
| `Manager.Disconnect` | server.js:179-194 | Afterwards the client has no entry and every other entry is unchanged. With no entry, the state is unchanged. For SSH it ends the stream and then the connection. For Telnet it destroys the socket. It emits nothing. |
| `Manager.DisconnectIdempotent` | server.js:180-192 | Disconnecting twice gives the same state as disconnecting once. |
| `Dispatch.OnConnectSsh` | server.js:202-212 | A host the policy refuses gets exactly one "not permitted" error, and nothing else changes: no object is built, nothing is dialled, nothing is registered. An allowed host gets a fresh SSH object for the client. |
| `Dispatch.OnConnectTelnet` | server.js:214-224 | Same gate for Telnet. An allowed host with a port in range gets a fresh socket, and that host is dialled. An allowed host with a port out of range makes the handler throw: the fault is recorded and nothing is dialled. |
| `Dispatch.OnConnect` | server.js:202-224 | The two `connect-*` handlers keep the invariant, only append to the logs, and never decrease the connection counter. Any other message leaves the state unchanged. |
| `Dispatch.OnClientMessage` | server.js:199-234 | Every client message keeps the invariant and only appends to the event and library-call logs. `disconnect` and `force-disconnect` both act exactly as `Manager.Disconnect`. |
| `Dispatch.FaultIsFinal` | server.js:214-224 | Once an exception has escaped a handler, no trace of later events changes the state. |
| `Dispatch.OnCallback` | server.js:79-170 | Every library callback keeps the invariant and only appends to the logs. It never builds an object: the connection ids and the set of objects are unchanged. |
| `Dispatch.RunPreservesInv` | server.js:70-195 | Every state reached by a sequential trace from a well-formed state is well formed. |
| `Dispatch.RegistryInjective` | server.js:101-148 | In a well-formed state, two clients never share a connection object. |
| `Dispatch.ClientMessageNeverInserts` | server.js:199-234 | No client message adds a registry entry or changes one. At most it removes one: `disconnect` and `force-disconnect` do. |
| `Dispatch.CallbackInserts` | server.js:83-148 | A callback that adds or changes a registry entry is either shell success (the entry is `Entry(Ssh, k)`) or Telnet connect (the entry is `Entry(Telnet, k)`). The entry belongs to the owner of object `k`. |
| `Dispatch.OnlyOpenCallbacksInsert` | server.js:83-148 | In any state, well formed or not, only two events can add or change a client's entry: shell success (an SSH entry) and the Telnet connect callback (a Telnet entry). Each of them writes the entry for the owner of the connection that fired. |
| `Dispatch.MinimalDefaultNeverDials` | server.js:205-221 | Under the fallback configuration, any trace leaves everything empty: no object is built, nothing is dialled, nothing is registered, and every emitted event is an error. |
| `Observations.ConnectedBeforeShell` | server.js:79-101 | `connected` is emitted on transport ready while the client still has no entry. |
| `Observations.DisconnectDoesNotCancelDial` | server.js:179-194 | A connect, then a force-disconnect, then `ready` still dials, opens a shell and emits `connected`. |
| `Observations.SecondConnectLeavesFirstLive` | server.js:101-107 | A second SSH shell overwrites the entry and leaves the first connection unchanged, with no end or destroy call. Later input is written to both. |
| `Observations.StaleCloseDeletesNewerEntry` | server.js:89-92 | An old stream's `close` deletes the entry of the client's newer connection, which stays open. |
| `Observations.DisconnectedReportedTwice` | server.js:89-122 | Stream `close` followed by connection `end` emits `disconnected` twice to the same client. |
| `Observations.TelnetInputBeforeConnect` | server.js:144-176 | Input sent before the Telnet connect callback is written to the connecting socket. |
| `Observations.InputAfterSshDisconnectStillWritten` | server.js:179-194 | After `disconnect` ends an SSH stream, the next input still reaches `stream.write` for it. |
| `Observations.StaleTelnetCloseDeletesNewerEntry` | server.js:160-164 | An old Telnet socket's `close` deletes the entry of the client's newer connection, which stays open. |
| `Observations.DisconnectDuringDialEndsEarlierSession` | server.js:179-194 | With an earlier SSH session, a connect, then a force-disconnect, then `ready` ends the earlier session's stream and connection. The new dial still opens a shell request and emits `connected`, and the client is left with no entry. |
| `Observations.TelnetBadPortHalts` | server.js:144-176 | An allowed Telnet request for port 70000 records a bad-port fault. It dials nothing and installs no handler, and later input has no effect. |

## Left out

- Express, the HTTP server, Socket.IO setup, static files and `server.listen` (server.js:1-18, 236-240): network plumbing.
- The file handling of `loadConfig`: checking for, copying, reading and parsing `config/gateway.json`, and `process.exit`. Only the resulting record and the minimal default constant are modelled.
- JSON typing of the configuration: `requireHostValidation` is `true`, `false` or absent, and every allowlist entry has a `protocols` list. A non-boolean truthy flag, and an entry without `protocols` (which makes `find` throw), are not modelled.
- ssh2 and `net` internals. Each library is reduced to its callbacks. The model does not constrain their order beyond the phase a handler needs (for example, a shell result only after `ready`). It therefore admits some orders the libraries would not produce.
- Credentials (`username`, `password`, `privateKey`), `readyTimeout: 20000`, and all timing. The Telnet `timeout` is an ordinary event.
- Exceptions thrown inside `disconnect`'s `try` (its library calls never throw in the model), logging, and the `toString()` decoding of output: data is an opaque string.
- What Socket.IO does with a closed channel. Events emitted to it are still logged, although Socket.IO drops them. Messages from it are accepted, although Socket.IO delivers none after `disconnect`.
- Concurrency: the model is one sequential trace of events.
- Client payloads are assumed well-typed. A `connect-ssh` or `connect-telnet` message without a payload makes its handler throw (`config.host` of `undefined`). So does a `resize` without a payload (`data.rows`). A non-string `input` makes `write` throw. None of these throws is modelled.
- What happens to the process after an exception escapes a handler. By default Node terminates it. The model records the fault and ignores every later event. Only the Telnet out-of-range port throw is modelled.
- The ssh2 stream's reaction to a `write` after `end()`: by default Node writable streams fail such a write, destroy the stream and emit `error`, and no `error` listener is installed on the stream. The model shows only that the write reaches `stream.write`.
- Manager.Writes: states which connections receive a write, and that no connection receives two when the handlers forward to distinct connections. It does not state the order (handler installation order).
- Manager.Resizes: states which shells receive a window change, and that none receives two when the handlers forward to distinct connections. It does not state the order.
- Manager.OnInput: the writes reach each live target exactly once. Their order is not stated.
- Manager.OnResize: the window changes reach each live target exactly once. Their order is not stated.
- `public/app.js`, `php/index.php` (browser UI) and `ecosystem.config.js` (process supervisor settings): not part of the gateway logic.

=== FILE: channel.dfy ===
/**
 The vocabulary shared by the gateway and its two neighbours: the messages a
 browser client sends over its Socket.IO channel, the events the gateway
 emits back to it, and the calls the gateway makes into the ssh2 and `net`
 libraries.
 */
module Channel {
  import opened Optional

  /** `socket.id`: the identity of one client channel. */
  type ClientId = string

  /** Identity of one library connection object (an ssh2 `Client` or a
      `net.Socket`), allocated when the gateway constructs it. */
  type ConnId = nat

  datatype Protocol = Ssh | Telnet

  /** The protocol names used in `allowedHosts[].protocols` and in the
      `type` field of a `connected` status. */
  function ProtocolName(p: Protocol): (name: string) {
    match p
    case Ssh => "ssh"
    case Telnet => "telnet"
  }

  /** Payload of `connect-ssh`. Credentials are passed through to the library
      untouched and are not modelled. `syncError` is the library's synchronous
      verdict on the options: `Some(m)` when `conn.connect` throws with
      message `m`. */
  datatype SshRequest = SshRequest(host: string, port: Option<int>, syncError: Option<string>)

  /** Payload of `connect-telnet`. */
  datatype TelnetRequest = TelnetRequest(host: string, port: Option<int>)

  /** Messages received from a client channel. `ChannelClosed` is Socket.IO's
      own `disconnect` event. */
  datatype ClientMessage =
    | ConnectSsh(ssh: SshRequest)
    | ConnectTelnet(telnet: TelnetRequest)
    | Input(data: string)
    | Resize(rows: int, cols: int)
    | ChannelClosed
    | ForceDisconnect

  /** The `status` of a `connection-status` event; only `connected` carries a `type`. */
  datatype Status = Connected(kind: Protocol) | Disconnected

  /** Events emitted to a client channel. */
  datatype ClientEvent =
    | ConnectionStatus(status: Status)
    | Data(payload: string)
    | Error(message: string)

  datatype Emission = Emission(to: ClientId, event: ClientEvent)

  /** Calls the gateway makes into the network libraries, in the order made. */
  datatype RemoteOp =
    | Dial(conn: ConnId, protocol: Protocol, host: string, port: int)
    | OpenShell(conn: ConnId)
    | Write(conn: ConnId, data: string)
    | SetWindow(conn: ConnId, rows: int, cols: int)
    | EndStream(conn: ConnId)
    | EndConnection(conn: ConnId)
    | DestroySocket(conn: ConnId)

  /** `config.port || default`: a missing or zero port falls back to the default. */
  function EffectivePort(port: Option<int>, default: int): (effective: int) {
    if port.Some? && port.value != 0 then port.value else default
  }

  const SshDefaultPort := 22
  const TelnetDefaultPort := 23

  /** The port range `net.Socket.connect` accepts; any other port makes it
      throw a `RangeError` before anything is dialled. */
  predicate ValidPort(port: int) {
    0 <= port < 65536
  }

  /** An exception that escaped one of the gateway's handlers. */
  datatype Fault = BadPort(port: int)

  /** The error text for a host refused by the allowlist. */
  function NotPermittedMessage(host: string): (message: string) {
    "Connection to " + host + " is not permitted. Host not found in allowed hosts list."
  }
}

=== FILE: dispatch.dfy ===
/**
 The per-client handlers installed by `io.on('connection')`
 (server.js:199-234) and the library callbacks, combined into one
 sequential transition function over the manager's state.
 */
module Dispatch {
  import opened Optional
  import opened HostPolicy
  import opened Channel
  import opened Manager

  /** A callback an ssh2 client or a `net` socket delivers to the gateway. */
  datatype Callback =
    | SshReady
    | SshShellOpened
    | SshShellFailed(message: string)
    | SshStdout(data: string)
    | SshStderr(data: string)
    | SshStreamClose
    | SshConnError(message: string)
    | SshEnd
    | TelnetConnect
    | TelnetData(data: string)
    | TelnetError(message: string)
    | TelnetClose
    | TelnetTimeout

  /** One input to the gateway: a message on a client channel, or a callback
      from the library object `conn`. */
  datatype Event =
    | FromClient(client: ClientId, msg: ClientMessage)
    | FromLibrary(conn: ConnId, callback: Callback)

  /** The `connect-ssh` handler: the host is checked against the policy
      first; a refused request emits one error and constructs nothing. */
  function OnConnectSsh(cfg: Config, s: State, c: ClientId, req: SshRequest): (r: State)
    ensures Inv(s) ==> Inv(r)
    ensures !IsHostAllowed(cfg, req.host, "ssh") ==>
      r == s.(emitted := s.emitted + [Emission(c, Error(NotPermittedMessage(req.host)))])
    ensures IsHostAllowed(cfg, req.host, "ssh") ==>
      && r.connections == s.connections
      && s.nextConn in r.adapters && r.adapters[s.nextConn].SshClient? && r.adapters[s.nextConn].owner == c
      && (req.syncError.None? ==> r.remote == s.remote + [Dial(s.nextConn, Ssh, req.host, EffectivePort(req.port, SshDefaultPort))])
  {
    if !IsHostAllowed(cfg, req.host, ProtocolName(Ssh)) then
      Emit(s, c, Error(NotPermittedMessage(req.host)))
    else CreateSsh(s, c, req)
  }

  /** The `connect-telnet` handler, gated the same way. An allowed host is
      dialled when its port is in range; otherwise `connect` throws out of
      the handler and the fault is recorded with nothing dialled. */
  function OnConnectTelnet(cfg: Config, s: State, c: ClientId, req: TelnetRequest): (r: State)
    ensures Inv(s) ==> Inv(r)
    ensures !IsHostAllowed(cfg, req.host, "telnet") ==>
      r == s.(emitted := s.emitted + [Emission(c, Error(NotPermittedMessage(req.host)))])
    ensures IsHostAllowed(cfg, req.host, "telnet") && ValidPort(EffectivePort(req.port, TelnetDefaultPort)) ==>
      && r.connections == s.connections
      && s.nextConn in r.adapters && r.adapters[s.nextConn].TelnetSocket? && r.adapters[s.nextConn].owner == c
      && r.remote == s.remote + [Dial(s.nextConn, Telnet, req.host, EffectivePort(req.port, TelnetDefaultPort))]
    ensures IsHostAllowed(cfg, req.host, "telnet") && !ValidPort(EffectivePort(req.port, TelnetDefaultPort)) ==>
      && r.fault == Some(BadPort(EffectivePort(req.port, TelnetDefaultPort)))
      && r.remote == s.remote && r.adapters == s.adapters && r.inputListeners == s.inputListeners
  {
    if !IsHostAllowed(cfg, req.host, ProtocolName(Telnet)) then
      Emit(s, c, Error(NotPermittedMessage(req.host)))
    else CreateTelnet(s, c, req)
  }

  /** The two `connect-*` handlers; other messages leave the state alone. */
  function OnConnect(cfg: Config, s: State, c: ClientId, msg: ClientMessage): (r: State)
    ensures Inv(s) ==> Inv(r)
    ensures s.emitted <= r.emitted && s.remote <= r.remote
    ensures s.nextConn <= r.nextConn
    ensures !msg.ConnectSsh? && !msg.ConnectTelnet? ==> r == s
  {
    match msg
    case ConnectSsh(req) => OnConnectSsh(cfg, s, c, req)
    case ConnectTelnet(req) => OnConnectTelnet(cfg, s, c, req)
    case _ => s
  }

  /** A client-channel message handled to completion. */
  function OnClientMessage(cfg: Config, s: State, c: ClientId, msg: ClientMessage): (r: State)
    ensures Inv(s) ==> Inv(r)
    ensures s.emitted <= r.emitted && s.remote <= r.remote
    ensures s.nextConn <= r.nextConn
    ensures msg.ChannelClosed? || msg.ForceDisconnect? ==> r == Disconnect(s, c)
  {
    match msg
    case ConnectSsh(_) => OnConnect(cfg, s, c, msg)
    case ConnectTelnet(_) => OnConnect(cfg, s, c, msg)
    case Input(data) => OnInput(s, c, data)
    case Resize(rows, cols) => OnResize(s, c, rows, cols)
    case ChannelClosed => Disconnect(s, c)
    case ForceDisconnect => Disconnect(s, c)
  }

  /** A library callback handled to completion. Callbacks never construct a
      connection object. */
  function OnCallback(s: State, k: ConnId, cb: Callback): (r: State)
    ensures Inv(s) ==> Inv(r)
    ensures s.emitted <= r.emitted && s.remote <= r.remote
    ensures r.nextConn == s.nextConn && r.adapters.Keys == s.adapters.Keys
  {
    match cb
    case SshReady => OnSshReady(s, k)
    case SshShellOpened => OnShell(s, k, None)
    case SshShellFailed(m) => OnShell(s, k, Some(m))
    case SshStdout(data) => OnStreamData(s, k, data)
    case SshStderr(data) => OnStreamData(s, k, data)
    case SshStreamClose => OnStreamClose(s, k)
    case SshConnError(m) => OnSshError(s, k, m)
    case SshEnd => OnSshEnd(s, k)
    case TelnetConnect => OnTelnetConnect(s, k)
    case TelnetData(data) => OnTelnetData(s, k, data)
    case TelnetError(m) => OnTelnetError(s, k, m)
    case TelnetClose => OnTelnetClose(s, k)
    case TelnetTimeout => OnTelnetTimeout(s, k)
  }

  /** One event handled to completion. Once an exception has escaped a
      handler the process is gone, and no later event has any effect. */
  function Step(cfg: Config, s: State, e: Event): (r: State)
    ensures Inv(s) ==> Inv(r)
    ensures s.fault.Some? ==> r == s
  {
    if s.fault.Some? then s
    else match e
    case FromClient(c, msg) => OnClientMessage(cfg, s, c, msg)
    case FromLibrary(k, cb) => OnCallback(s, k, cb)
  }

  /** A sequential trace of events handled one after another. */
  function Run(cfg: Config, s: State, trace: seq<Event>): (r: State)
    decreases |trace|
  {
    if trace == [] then s else Run(cfg, Step(cfg, s, trace[0]), trace[1..])
  }

  /** Every state reached from the initial manager is well formed. */
  lemma {:induction false} RunPreservesInv(cfg: Config, s: State, trace: seq<Event>)
    requires Inv(s)
    ensures Inv(Run(cfg, s, trace))
    decreases |trace|
  {
    if trace != [] {
      RunPreservesInv(cfg, Step(cfg, s, trace[0]), trace[1..]);
    }
  }

  /** A recorded fault is final: after it, no trace changes the state. */
  lemma {:induction false} FaultIsFinal(cfg: Config, s: State, trace: seq<Event>)
    requires s.fault.Some?
    ensures Run(cfg, s, trace) == s
    decreases |trace|
  {
    if trace != [] {
      FaultIsFinal(cfg, Step(cfg, s, trace[0]), trace[1..]);
    }
  }

  /** In a well-formed state each library object is registered under its own
      client only, so two clients never share a connection. */
  lemma RegistryInjective(s: State, c1: ClientId, c2: ClientId)
    requires Inv(s)
    requires c1 in s.connections && c2 in s.connections && c1 != c2
    ensures s.connections[c1].conn != s.connections[c2].conn
  {
  }

  /** A client message never adds or changes a registry entry; at most it
      removes one. */
  lemma ClientMessageNeverInserts(cfg: Config, s: State, c': ClientId, msg: ClientMessage, c: ClientId)
    requires c in OnClientMessage(cfg, s, c', msg).connections
    ensures c in s.connections && OnClientMessage(cfg, s, c', msg).connections[c] == s.connections[c]
  {
  }

  /** A callback that adds or changes an entry is shell success or Telnet
      connect, and it writes that entry for the owner of the object. */
  lemma CallbackInserts(s: State, k: ConnId, cb: Callback, c: ClientId)
    requires c in OnCallback(s, k, cb).connections
    requires c !in s.connections || OnCallback(s, k, cb).connections[c] != s.connections[c]
    ensures cb == SshShellOpened ==> OnCallback(s, k, cb).connections[c] == Entry(Ssh, k)
    ensures cb == TelnetConnect ==> OnCallback(s, k, cb).connections[c] == Entry(Telnet, k)
    ensures cb == SshShellOpened || cb == TelnetConnect
    ensures k in s.adapters && s.adapters[k].owner == c
  {
  }

  /** The registry gains or changes an entry only in the shell-success
      callback (an SSH entry) or the Telnet connect callback (a Telnet entry),
      always under the owner of the connection that fired. */
  lemma OnlyOpenCallbacksInsert(cfg: Config, s: State, e: Event, c: ClientId)
    requires c in Step(cfg, s, e).connections
    requires c !in s.connections || Step(cfg, s, e).connections[c] != s.connections[c]
    ensures e.FromLibrary?
    ensures e.callback == SshShellOpened ==> Step(cfg, s, e).connections[c] == Entry(Ssh, e.conn)
    ensures e.callback == TelnetConnect ==> Step(cfg, s, e).connections[c] == Entry(Telnet, e.conn)
    ensures e.callback == SshShellOpened || e.callback == TelnetConnect
    ensures e.conn in s.adapters && s.adapters[e.conn].owner == c
  {
    if s.fault.None? {
      match e
      case FromClient(c', msg) => ClientMessageNeverInserts(cfg, s, c', msg, c);
      case FromLibrary(k, cb) => CallbackInserts(s, k, cb, c);
    }
  }

  /** Nothing has ever been constructed or dialled. */
  ghost predicate Quiet(s: State) {
    && s.connections == map[]
    && s.adapters == map[]
    && s.inputListeners == []
    && s.resizeListeners == []
    && s.remote == []
  }

  /** Only error events have been emitted. */
  ghost predicate OnlyErrors(s: State) {
    forall i :: 0 <= i < |s.emitted| ==> s.emitted[i].event.Error?
  }

  /** Under the fallback policy one client message leaves a quiet gateway
      quiet and emits at most an error. */
  lemma QuietClientMessage(s: State, c: ClientId, msg: ClientMessage)
    requires Quiet(s) && OnlyErrors(s)
    ensures Quiet(OnClientMessage(MinimalDefault, s, c, msg)) && OnlyErrors(OnClientMessage(MinimalDefault, s, c, msg))
  {
    match msg {
      case ConnectSsh(req) =>
        MinimalDefaultDeniesAll(req.host, "ssh");
      case ConnectTelnet(req) =>
        MinimalDefaultDeniesAll(req.host, "telnet");
      case Input(data) =>
      case Resize(rows, cols) =>
      case ChannelClosed =>
      case ForceDisconnect =>
    }
  }

  /** With no library object in existence, no callback has any effect. */
  lemma QuietCallback(s: State, k: ConnId, cb: Callback)
    requires Quiet(s)
    ensures OnCallback(s, k, cb) == s
  {
  }

  /** Under the fallback policy the gateway never constructs or dials
      anything, whatever the clients send and whatever the libraries report:
      every event emitted is an error. */
  lemma {:induction false} MinimalDefaultNeverDials(s: State, trace: seq<Event>)
    requires Quiet(s) && OnlyErrors(s)
    ensures Quiet(Run(MinimalDefault, s, trace))
    ensures OnlyErrors(Run(MinimalDefault, s, trace))
    decreases |trace|
  {
    if trace != [] {
      var s' := Step(MinimalDefault, s, trace[0]);
      if s.fault.None? {
        match trace[0]
        case FromClient(c, msg) => QuietClientMessage(s, c, msg);
        case FromLibrary(k, cb) => QuietCallback(s, k, cb);
      }
      MinimalDefaultNeverDials(s', trace[1..]);
    }
  }
}

=== FILE: host_policy.dfy ===
/**
 The gateway's host authorization (server.js:56-66) over an already parsed
 configuration record, and the minimal configuration `loadConfig` falls back
 to when neither `config/gateway.json` nor its example exists (server.js:39-47).
 */
module HostPolicy {
  import opened Optional

  /** One element of `allowedHosts`: a host name and the protocol names
      (`"ssh"`, `"telnet"`) it may be dialled with. */
  datatype AllowedHost = AllowedHost(host: string, protocols: seq<string>)

  /** The `security` object; a field missing from the JSON is `None`. */
  datatype Security = Security(
    requireHostValidation: Option<bool>,
    allowPrivateNetworks: Option<bool>,
    maxConnectionTime: Option<int>,
    connectionTimeout: Option<int>)

  /** The parsed configuration document. */
  datatype Config = Config(allowedHosts: Option<seq<AllowedHost>>, security: Option<Security>)

  /** The policy used when no configuration file can be found. */
  const MinimalDefault: Config :=
    Config(Some([]), Some(Security(Some(true), Some(false), Some(3600000), Some(30000))))

  /** `config.security?.requireHostValidation` is truthy. */
  predicate ValidationRequired(cfg: Config) {
    cfg.security.Some? && cfg.security.value.requireHostValidation == Some(true)
  }

  /** The predicate handed to `find`: exact host equality and protocol membership. */
  predicate Matches(entry: AllowedHost, host: string, protocol: string) {
    entry.host == host && protocol in entry.protocols
  }

  /** `Array.prototype.find`: the first entry that matches, if any. */
  function Find(hosts: seq<AllowedHost>, host: string, protocol: string): (r: Option<AllowedHost>)
    ensures r.None? <==> forall i :: 0 <= i < |hosts| ==> !Matches(hosts[i], host, protocol)
    ensures r.Some? ==> exists i :: 0 <= i < |hosts| && hosts[i] == r.value && FirstMatch(hosts, i, host, protocol)
  {
    if |hosts| == 0 then None
    else if Matches(hosts[0], host, protocol) then
      assert FirstMatch(hosts, 0, host, protocol);
      Some(hosts[0])
    else
      var r := Find(hosts[1..], host, protocol);
      assert r.Some? ==> exists i :: 0 <= i < |hosts[1..]| && hosts[1..][i] == r.value && FirstMatch(hosts[1..], i, host, protocol);
      assert forall i :: 0 <= i < |hosts[1..]| && FirstMatch(hosts[1..], i, host, protocol) ==> FirstMatch(hosts, i + 1, host, protocol);
      r
  }

  /** Entry `i` matches and no earlier entry does. */
  ghost predicate FirstMatch(hosts: seq<AllowedHost>, i: int, host: string, protocol: string)
    requires 0 <= i < |hosts|
  {
    Matches(hosts[i], host, protocol) && forall j :: 0 <= j < i ==> !Matches(hosts[j], host, protocol)
  }

  /** Some allowlist entry names `host` exactly and lists `protocol`. */
  ghost predicate Listed(cfg: Config, host: string, protocol: string) {
    cfg.allowedHosts.Some? &&
    exists i :: 0 <= i < |cfg.allowedHosts.value| && Matches(cfg.allowedHosts.value[i], host, protocol)
  }

  /** `isHostAllowed(host, protocol)`. */
  function IsHostAllowed(cfg: Config, host: string, protocol: string): (r: bool)
    ensures !ValidationRequired(cfg) ==> r
    ensures ValidationRequired(cfg) ==> (r <==> Listed(cfg, host, protocol))
    ensures ValidationRequired(cfg) && cfg.allowedHosts.None? ==> !r
  {
    if !ValidationRequired(cfg) then true
    else match cfg.allowedHosts
      case None => false
      case Some(hosts) => Find(hosts, host, protocol).Some?
  }

  /** The fallback policy denies every host for every protocol. */
  lemma MinimalDefaultDeniesAll(host: string, protocol: string)
    ensures !IsHostAllowed(MinimalDefault, host, protocol)
  {
  }

  /** Only `requireHostValidation` and `allowedHosts` are consulted: replacing
      `allowPrivateNetworks`, `maxConnectionTime` and `connectionTimeout` by
      anything leaves every verdict unchanged. */
  lemma UnusedSecurityFieldsIgnored(cfg: Config, other: Security, host: string, protocol: string)
    requires cfg.security.Some?
    requires other.requireHostValidation == cfg.security.value.requireHostValidation
    ensures IsHostAllowed(cfg.(security := Some(other)), host, protocol) == IsHostAllowed(cfg, host, protocol)
  {
  }

  /** Adding an entry to the allowlist never revokes a permission. */
  lemma {:induction false} AllowlistMonotone(cfg: Config, extra: AllowedHost, host: string, protocol: string)
    requires cfg.allowedHosts.Some?
    requires IsHostAllowed(cfg, host, protocol)
    ensures IsHostAllowed(cfg.(allowedHosts := Some(cfg.allowedHosts.value + [extra])), host, protocol)
  {
    var cfg' := cfg.(allowedHosts := Some(cfg.allowedHosts.value + [extra]));
    if ValidationRequired(cfg) {
      var i :| 0 <= i < |cfg.allowedHosts.value| && Matches(cfg.allowedHosts.value[i], host, protocol);
      assert cfg'.allowedHosts.value[i] == cfg.allowedHosts.value[i];
    }
  }

  /** A single-host allowlist for SSH only: SSH to that host passes, Telnet to
      the same host and SSH to any other host are refused. */
  lemma SingleSshHostScenario(h1: string, h2: string)
    requires h1 != h2
    ensures var cfg := Config(Some([AllowedHost(h1, ["ssh"])]), Some(Security(Some(true), None, None, None)));
      && IsHostAllowed(cfg, h1, "ssh")
      && !IsHostAllowed(cfg, h1, "telnet")
      && !IsHostAllowed(cfg, h2, "ssh")
  {
  }
}

=== FILE: manager.dfy ===
/**
 `ConnectionManager` (server.js:70-195) as a pure state machine.

 The registry `connections` maps a client id to the entry `Map.set` stored
 for it. The library objects the manager constructs are kept separately in
 `adapters`: they outlive their registry entry, because the callbacks the
 manager registered on them stay attached whether or not the entry is still
 there. The `input`/`resize` handlers the manager installs on a client's
 socket are kept, in installation order, as listener lists.

 Each library callback is one function over the state. A callback that the
 library cannot deliver in the adapter's current phase (a shell result
 before `ready`, data on a closed stream, a second `close`) leaves the state
 unchanged.
 */
module Manager {
  import opened Optional
  import opened Channel

  /** Where an ssh2 `Client` is in its life. */
  datatype SshPhase =
    | Dialing        // `conn.connect` accepted the options; waiting for `ready`
    | ConnectThrew   // `conn.connect` threw; the client never dials
    | AwaitingShell  // `ready` seen and `conn.shell` requested
    | ShellOpen      // the shell callback delivered a stream
    | ShellFailed    // the shell callback delivered an error

  /** A library connection object together with the flags the gateway's
      callbacks depend on. `streamDestroyed` and `destroyed` are the
      libraries' `destroyed` flags; `ended` and `closed` record that the
      once-only `end`/`close` events have been delivered. */
  datatype Adapter =
    | SshClient(owner: ClientId, phase: SshPhase, streamDestroyed: bool, ended: bool)
    | TelnetSocket(owner: ClientId, established: bool, destroyed: bool, closed: bool)

  /** A registry value: `{type, connection[, stream]}`. */
  datatype Entry = Entry(kind: Protocol, conn: ConnId)

  /** A handler installed on `client`'s socket that forwards to `conn`. */
  datatype Listener = Listener(client: ClientId, conn: ConnId)

  datatype State = State(
    connections: map<ClientId, Entry>,
    adapters: map<ConnId, Adapter>,
    nextConn: ConnId,
    inputListeners: seq<Listener>,
    resizeListeners: seq<Listener>,
    emitted: seq<Emission>,
    remote: seq<RemoteOp>,
    fault: Option<Fault>)

  /** `new ConnectionManager()`: an empty registry and nothing constructed yet. */
  const Init: State := State(map[], map[], 0, [], [], [], [], None)

  /** The `stream`/`socket` a forwarding handler writes to is not destroyed. */
  predicate Writable(a: Adapter) {
    match a
    case SshClient(_, _, streamDestroyed, _) => !streamDestroyed
    case TelnetSocket(_, _, destroyed, _) => !destroyed
  }

  // ---------------------------------------------------------------------
  // Well-formedness kept by every transition

  /** What a registry entry may point at: an adapter the same client owns,
      of the entry's kind, whose shell (SSH) or connection (Telnet) was
      reported open and has not been reported closed, and whose forwarding
      handlers are installed. */
  ghost predicate Registered(s: State, c: ClientId)
    requires c in s.connections
  {
    var e := s.connections[c];
    && e.conn in s.adapters
    && s.adapters[e.conn].owner == c
    && Listener(c, e.conn) in s.inputListeners
    && (e.kind == Ssh ==> Listener(c, e.conn) in s.resizeListeners)
    && match e.kind
       case Ssh =>
         s.adapters[e.conn].SshClient? && s.adapters[e.conn].phase == ShellOpen && !s.adapters[e.conn].streamDestroyed
       case Telnet =>
         s.adapters[e.conn].TelnetSocket? && s.adapters[e.conn].established && !s.adapters[e.conn].closed
  }

  /** An `input` handler forwards to an adapter of its own client; for SSH it
      exists only once the shell opened. */
  ghost predicate InputListenerOk(adapters: map<ConnId, Adapter>, l: Listener) {
    && l.conn in adapters
    && adapters[l.conn].owner == l.client
    && (adapters[l.conn].SshClient? ==> adapters[l.conn].phase == ShellOpen)
  }

  /** A `resize` handler forwards to an SSH shell of its own client. */
  ghost predicate ResizeListenerOk(adapters: map<ConnId, Adapter>, l: Listener) {
    && l.conn in adapters
    && adapters[l.conn].owner == l.client
    && adapters[l.conn].SshClient?
    && adapters[l.conn].phase == ShellOpen
  }

  /** No two handlers in `ls` forward to the same connection: each library
      object gets at most one handler of each kind. */
  ghost predicate DistinctConns(ls: seq<Listener>) {
    forall i, j :: 0 <= i < j < |ls| ==> ls[i].conn != ls[j].conn
  }

  /** The manager's well-formedness: connection ids are fresh when
      allocated, registry entries are `Registered`, a Telnet socket's `input`
      handler is installed with it, and every handler is well formed and
      the only one of its kind for its connection. */
  ghost predicate Inv(s: State) {
    && (forall k :: k in s.adapters ==> k < s.nextConn)
    && (forall c :: c in s.connections ==> Registered(s, c))
    && (forall k :: k in s.adapters && s.adapters[k].TelnetSocket? ==> Listener(s.adapters[k].owner, k) in s.inputListeners)
    && (forall i :: 0 <= i < |s.inputListeners| ==> InputListenerOk(s.adapters, s.inputListeners[i]))
    && (forall i :: 0 <= i < |s.resizeListeners| ==> ResizeListenerOk(s.adapters, s.resizeListeners[i]))
    && DistinctConns(s.inputListeners)
    && DistinctConns(s.resizeListeners)
  }

  /** The transition installs no handler, allocates no connection id and
      raises nothing. */
  ghost predicate HandlersKept(s: State, r: State) {
    && r.inputListeners == s.inputListeners
    && r.resizeListeners == s.resizeListeners
    && r.nextConn == s.nextConn
    && r.fault == s.fault
  }

  /** No library object other than `k` changes, and none is added or dropped. */
  ghost predicate OthersKept(s: State, r: State, k: ConnId) {
    && r.adapters.Keys == s.adapters.Keys
    && forall j :: j in s.adapters && j != k ==> r.adapters[j] == s.adapters[j]
  }

  /** Appends one event for client `c`. */
  function Emit(s: State, c: ClientId, ev: ClientEvent): (r: State) {
    s.(emitted := s.emitted + [Emission(c, ev)])
  }

  // ---------------------------------------------------------------------
  // createSSHConnection and the callbacks it registers

  /** `createSSHConnection`: constructs a fresh ssh2 client for `c` and asks
      it to dial. Nothing is put in the registry yet. */
  function CreateSsh(s: State, c: ClientId, req: SshRequest): (r: State)
    ensures Inv(s) ==> Inv(r)
    ensures r.connections == s.connections
    ensures r.inputListeners == s.inputListeners && r.resizeListeners == s.resizeListeners
    ensures r.nextConn == s.nextConn + 1 && r.fault == s.fault
    ensures Inv(s) ==> s.nextConn !in s.adapters
    ensures s.nextConn in r.adapters
    ensures r.adapters[s.nextConn] == SshClient(c, if req.syncError.Some? then ConnectThrew else Dialing, false, false)
    ensures r.adapters.Keys == s.adapters.Keys + {s.nextConn}
    ensures forall k :: k in s.adapters && k != s.nextConn ==> r.adapters[k] == s.adapters[k]
    ensures req.syncError.None? ==>
      r.remote == s.remote + [Dial(s.nextConn, Ssh, req.host, EffectivePort(req.port, SshDefaultPort))] && r.emitted == s.emitted
    ensures req.syncError.Some? ==>
      r.remote == s.remote && r.emitted == s.emitted + [Emission(c, Error("Failed to connect: " + req.syncError.value))]
  {
    var k := s.nextConn;
    var phase := if req.syncError.Some? then ConnectThrew else Dialing;
    var s1 := s.(adapters := s.adapters[k := SshClient(c, phase, false, false)], nextConn := k + 1);
    match req.syncError
    case None => s1.(remote := s.remote + [Dial(k, Ssh, req.host, EffectivePort(req.port, SshDefaultPort))])
    case Some(m) => Emit(s1, c, Error("Failed to connect: " + m))
  }

  /** The SSH `ready` callback: reports `connected` at once and requests a shell. */
  function OnSshReady(s: State, k: ConnId): (r: State)
    ensures Inv(s) ==> Inv(r)
    ensures r.connections == s.connections
    ensures HandlersKept(s, r) && OthersKept(s, r, k)
    ensures k in s.adapters && s.adapters[k].SshClient? && s.adapters[k].phase == Dialing ==>
      && r.emitted == s.emitted + [Emission(s.adapters[k].owner, ConnectionStatus(Connected(Ssh)))]
      && r.remote == s.remote + [OpenShell(k)]
      && r.adapters == s.adapters[k := s.adapters[k].(phase := AwaitingShell)]
    ensures !(k in s.adapters && s.adapters[k].SshClient? && s.adapters[k].phase == Dialing) ==> r == s
  {
    if k in s.adapters && s.adapters[k].SshClient? && s.adapters[k].phase == Dialing then
      var a := s.adapters[k];
      var s1 := s.(adapters := s.adapters[k := a.(phase := AwaitingShell)], remote := s.remote + [OpenShell(k)]);
      Emit(s1, a.owner, ConnectionStatus(Connected(Ssh)))
    else s
  }

  /** The `conn.shell` callback. On success the entry is put in the registry,
      replacing whatever the owner had there without closing it, and the
      `input` and `resize` handlers are installed. On failure one error is
      emitted and nothing is registered. */
  function OnShell(s: State, k: ConnId, err: Option<string>): (r: State)
    ensures Inv(s) ==> Inv(r)
    ensures r.remote == s.remote
    ensures r.nextConn == s.nextConn && r.fault == s.fault && OthersKept(s, r, k)
    ensures k in s.adapters && s.adapters[k].SshClient? && s.adapters[k].phase == AwaitingShell ==>
      var c := s.adapters[k].owner;
      && (err.None? ==>
            && r.connections == s.connections[c := Entry(Ssh, k)]
            && r.emitted == s.emitted
            && r.inputListeners == s.inputListeners + [Listener(c, k)]
            && r.resizeListeners == s.resizeListeners + [Listener(c, k)])
      && (err.Some? ==>
            && r.connections == s.connections
            && HandlersKept(s, r)
            && r.emitted == s.emitted + [Emission(c, Error("Failed to start shell: " + err.value))])
    ensures !(k in s.adapters && s.adapters[k].SshClient? && s.adapters[k].phase == AwaitingShell) ==> r == s
  {
    if k in s.adapters && s.adapters[k].SshClient? && s.adapters[k].phase == AwaitingShell then
      var a := s.adapters[k];
      match err
      case Some(m) =>
        var s1 := s.(adapters := s.adapters[k := a.(phase := ShellFailed)]);
        Emit(s1, a.owner, Error("Failed to start shell: " + m))
      case None =>
        var adapters := s.adapters[k := a.(phase := ShellOpen, streamDestroyed := false)];
        s.(
          adapters := adapters,
          connections := s.connections[a.owner := Entry(Ssh, k)],
          inputListeners := s.inputListeners + [Listener(a.owner, k)],
          resizeListeners := s.resizeListeners + [Listener(a.owner, k)])
    else s
  }

  /** The shell stream's `data` handler and its stderr `data` handler: both
      relay the bytes to the owner unchanged. */
  function OnStreamData(s: State, k: ConnId, data: string): (r: State)
    ensures Inv(s) ==> Inv(r)
    ensures r.connections == s.connections && r.adapters == s.adapters && r.remote == s.remote
    ensures HandlersKept(s, r)
    ensures k in s.adapters && s.adapters[k].SshClient? && s.adapters[k].phase == ShellOpen && !s.adapters[k].streamDestroyed ==>
      r.emitted == s.emitted + [Emission(s.adapters[k].owner, Data(data))]
    ensures !(k in s.adapters && s.adapters[k].SshClient? && s.adapters[k].phase == ShellOpen && !s.adapters[k].streamDestroyed) ==>
      r == s
  {
    if k in s.adapters && s.adapters[k].SshClient? && s.adapters[k].phase == ShellOpen && !s.adapters[k].streamDestroyed then
      Emit(s, s.adapters[k].owner, Data(data))
    else s
  }

  /** The stream's `close` handler: emits `disconnected` and deletes whatever
      entry the owner has, even one that belongs to a newer connection. */
  function OnStreamClose(s: State, k: ConnId): (r: State)
    ensures Inv(s) ==> Inv(r)
    ensures r.remote == s.remote
    ensures HandlersKept(s, r) && OthersKept(s, r, k)
    ensures k in s.adapters && s.adapters[k].SshClient? && s.adapters[k].phase == ShellOpen && !s.adapters[k].streamDestroyed ==>
      var c := s.adapters[k].owner;
      && c !in r.connections
      && r.connections == s.connections - {c}
      && r.emitted == s.emitted + [Emission(c, ConnectionStatus(Disconnected))]
      && k in r.adapters && !Writable(r.adapters[k])
    ensures !(k in s.adapters && s.adapters[k].SshClient? && s.adapters[k].phase == ShellOpen && !s.adapters[k].streamDestroyed) ==>
      r == s
  {
    if k in s.adapters && s.adapters[k].SshClient? && s.adapters[k].phase == ShellOpen && !s.adapters[k].streamDestroyed then
      var a := s.adapters[k];
      var s1 := s.(adapters := s.adapters[k := a.(streamDestroyed := true)], connections := s.connections - {a.owner});
      Emit(s1, a.owner, ConnectionStatus(Disconnected))
    else s
  }

  /** Whether the ssh2 client was ever asked to dial. */
  predicate Started(a: Adapter) {
    a.SshClient? && a.phase != ConnectThrew
  }

  /** The connection's `error` handler: one error event, nothing else. */
  function OnSshError(s: State, k: ConnId, message: string): (r: State)
    ensures Inv(s) ==> Inv(r)
    ensures r.connections == s.connections && r.adapters == s.adapters && r.remote == s.remote
    ensures HandlersKept(s, r)
    ensures k in s.adapters && Started(s.adapters[k]) ==>
      r.emitted == s.emitted + [Emission(s.adapters[k].owner, Error("SSH connection failed: " + message))]
    ensures !(k in s.adapters && Started(s.adapters[k])) ==> r == s
  {
    if k in s.adapters && Started(s.adapters[k]) then
      Emit(s, s.adapters[k].owner, Error("SSH connection failed: " + message))
    else s
  }

  /** The connection's `end` handler: emits `disconnected` and deletes the
      owner's entry, independently of whether the stream's `close` already did. */
  function OnSshEnd(s: State, k: ConnId): (r: State)
    ensures Inv(s) ==> Inv(r)
    ensures r.remote == s.remote
    ensures HandlersKept(s, r) && OthersKept(s, r, k)
    ensures k in s.adapters && Started(s.adapters[k]) && !s.adapters[k].ended ==>
      var c := s.adapters[k].owner;
      && c !in r.connections
      && r.connections == s.connections - {c}
      && r.emitted == s.emitted + [Emission(c, ConnectionStatus(Disconnected))]
    ensures !(k in s.adapters && Started(s.adapters[k]) && !s.adapters[k].ended) ==> r == s
  {
    if k in s.adapters && Started(s.adapters[k]) && !s.adapters[k].ended then
      var a := s.adapters[k];
      var s1 := s.(adapters := s.adapters[k := a.(ended := true)], connections := s.connections - {a.owner});
      Emit(s1, a.owner, ConnectionStatus(Disconnected))
    else s
  }

  // ---------------------------------------------------------------------
  // createTelnetConnection and the callbacks it registers

  /** `createTelnetConnection`: constructs a fresh socket for `c`, dials it
      and installs the `input` handler at once; the registry is untouched.
      When the effective port is out of range, `connect` throws before any
      handler is registered and the exception escapes the handler: nothing
      is dialled or installed, and the fault is recorded. (The socket object
      constructed before the throw is unreachable and is not recorded.) */
  function CreateTelnet(s: State, c: ClientId, req: TelnetRequest): (r: State)
    ensures Inv(s) ==> Inv(r)
    ensures r.connections == s.connections && r.emitted == s.emitted && r.resizeListeners == s.resizeListeners
    ensures Inv(s) ==> s.nextConn !in s.adapters
    ensures ValidPort(EffectivePort(req.port, TelnetDefaultPort)) ==>
      && r.fault == s.fault
      && r.nextConn == s.nextConn + 1
      && s.nextConn in r.adapters && r.adapters[s.nextConn] == TelnetSocket(c, false, false, false)
      && r.adapters.Keys == s.adapters.Keys + {s.nextConn}
      && (forall k :: k in s.adapters && k != s.nextConn ==> r.adapters[k] == s.adapters[k])
      && r.remote == s.remote + [Dial(s.nextConn, Telnet, req.host, EffectivePort(req.port, TelnetDefaultPort))]
      && r.inputListeners == s.inputListeners + [Listener(c, s.nextConn)]
    ensures !ValidPort(EffectivePort(req.port, TelnetDefaultPort)) ==>
      && r.fault == Some(BadPort(EffectivePort(req.port, TelnetDefaultPort)))
      && r.adapters == s.adapters && r.nextConn == s.nextConn
      && r.remote == s.remote && r.inputListeners == s.inputListeners
  {
    var port := EffectivePort(req.port, TelnetDefaultPort);
    if !ValidPort(port) then
      s.(fault := Some(BadPort(port)))
    else
      var k := s.nextConn;
      var adapters := s.adapters[k := TelnetSocket(c, false, false, false)];
      s.(
        adapters := adapters,
        nextConn := k + 1,
        inputListeners := s.inputListeners + [Listener(c, k)],
        remote := s.remote + [Dial(k, Telnet, req.host, port)])
  }

  /** A Telnet socket on which the connect callback can still fire. */
  predicate Connecting(a: Adapter) {
    a.TelnetSocket? && !a.established && !a.destroyed && !a.closed
  }

  /** The connect callback: reports `connected` and puts the entry in the
      registry, replacing any entry the owner had without closing it. */
  function OnTelnetConnect(s: State, k: ConnId): (r: State)
    ensures Inv(s) ==> Inv(r)
    ensures r.remote == s.remote
    ensures HandlersKept(s, r) && OthersKept(s, r, k)
    ensures k in s.adapters && Connecting(s.adapters[k]) ==>
      var c := s.adapters[k].owner;
      && r.connections == s.connections[c := Entry(Telnet, k)]
      && r.emitted == s.emitted + [Emission(c, ConnectionStatus(Connected(Telnet)))]
    ensures !(k in s.adapters && Connecting(s.adapters[k])) ==> r == s
  {
    if k in s.adapters && Connecting(s.adapters[k]) then
      var a := s.adapters[k];
      var s1 := s.(adapters := s.adapters[k := a.(established := true)], connections := s.connections[a.owner := Entry(Telnet, k)]);
      Emit(s1, a.owner, ConnectionStatus(Connected(Telnet)))
    else s
  }

  /** The socket's `data` handler. */
  function OnTelnetData(s: State, k: ConnId, data: string): (r: State)
    ensures Inv(s) ==> Inv(r)
    ensures r.connections == s.connections && r.adapters == s.adapters && r.remote == s.remote
    ensures HandlersKept(s, r)
    ensures k in s.adapters && s.adapters[k].TelnetSocket? && s.adapters[k].established && !s.adapters[k].destroyed ==>
      r.emitted == s.emitted + [Emission(s.adapters[k].owner, Data(data))]
    ensures !(k in s.adapters && s.adapters[k].TelnetSocket? && s.adapters[k].established && !s.adapters[k].destroyed) ==> r == s
  {
    if k in s.adapters && s.adapters[k].TelnetSocket? && s.adapters[k].established && !s.adapters[k].destroyed then
      Emit(s, s.adapters[k].owner, Data(data))
    else s
  }

  /** The socket's `error` handler: one error event. The socket is destroyed
      by then, since `net` reports errors while destroying the socket; the
      registry is left alone. */
  function OnTelnetError(s: State, k: ConnId, message: string): (r: State)
    ensures Inv(s) ==> Inv(r)
    ensures r.connections == s.connections && r.remote == s.remote
    ensures HandlersKept(s, r) && OthersKept(s, r, k)
    ensures k in s.adapters && s.adapters[k].TelnetSocket? && !s.adapters[k].closed ==>
      && r.emitted == s.emitted + [Emission(s.adapters[k].owner, Error("Telnet error: " + message))]
      && k in r.adapters && !Writable(r.adapters[k])
    ensures !(k in s.adapters && s.adapters[k].TelnetSocket? && !s.adapters[k].closed) ==> r == s
  {
    if k in s.adapters && s.adapters[k].TelnetSocket? && !s.adapters[k].closed then
      var a := s.adapters[k];
      var s1 := s.(adapters := s.adapters[k := a.(destroyed := true)]);
      Emit(s1, a.owner, Error("Telnet error: " + message))
    else s
  }

  /** The socket's `close` handler: emits `disconnected` and deletes the
      owner's entry, even one that belongs to a newer connection. */
  function OnTelnetClose(s: State, k: ConnId): (r: State)
    ensures Inv(s) ==> Inv(r)
    ensures r.remote == s.remote
    ensures HandlersKept(s, r) && OthersKept(s, r, k)
    ensures k in s.adapters && s.adapters[k].TelnetSocket? && !s.adapters[k].closed ==>
      var c := s.adapters[k].owner;
      && c !in r.connections
      && r.connections == s.connections - {c}
      && r.emitted == s.emitted + [Emission(c, ConnectionStatus(Disconnected))]
      && k in r.adapters && !Writable(r.adapters[k])
    ensures !(k in s.adapters && s.adapters[k].TelnetSocket? && !s.adapters[k].closed) ==> r == s
  {
    if k in s.adapters && s.adapters[k].TelnetSocket? && !s.adapters[k].closed then
      var a := s.adapters[k];
      var s1 := s.(adapters := s.adapters[k := a.(destroyed := true, closed := true)], connections := s.connections - {a.owner});
      Emit(s1, a.owner, ConnectionStatus(Disconnected))
    else s
  }

  /** The socket's `timeout` handler: one error event, then `destroy()`.
      The registry is left to the `close` event that follows. */
  function OnTelnetTimeout(s: State, k: ConnId): (r: State)
    ensures Inv(s) ==> Inv(r)
    ensures r.connections == s.connections
    ensures HandlersKept(s, r) && OthersKept(s, r, k)
    ensures k in s.adapters && s.adapters[k].TelnetSocket? && !s.adapters[k].destroyed ==>
      && r.emitted == s.emitted + [Emission(s.adapters[k].owner, Error("Telnet connection timeout"))]
      && r.remote == s.remote + [DestroySocket(k)]
      && k in r.adapters && !Writable(r.adapters[k])
    ensures !(k in s.adapters && s.adapters[k].TelnetSocket? && !s.adapters[k].destroyed) ==> r == s
  {
    if k in s.adapters && s.adapters[k].TelnetSocket? && !s.adapters[k].destroyed then
      var a := s.adapters[k];
      var s1 := s.(adapters := s.adapters[k := a.(destroyed := true)], remote := s.remote + [DestroySocket(k)]);
      Emit(s1, a.owner, Error("Telnet connection timeout"))
    else s
  }

  // ---------------------------------------------------------------------
  // The socket handlers installed by the manager

  /** The writes the `input` handlers in `ls` make for a message from `c`:
      each handler of `c` whose stream or socket is not destroyed writes the
      data once, in installation order. */
  function Writes(ls: seq<Listener>, adapters: map<ConnId, Adapter>, c: ClientId, data: string): (ops: seq<RemoteOp>)
    ensures |ops| <= |ls|
    ensures forall op :: op in ops ==>
      op.Write? && op.data == data && Listener(c, op.conn) in ls && op.conn in adapters && Writable(adapters[op.conn])
    ensures forall i :: 0 <= i < |ls| && ls[i].client == c && ls[i].conn in adapters && Writable(adapters[ls[i].conn]) ==>
      Write(ls[i].conn, data) in ops
    ensures DistinctConns(ls) ==> forall i, j :: 0 <= i < j < |ops| ==> ops[i].conn != ops[j].conn
  {
    if ls == [] then []
    else
      var rest := Writes(ls[1..], adapters, c, data);
      if ls[0].client == c && ls[0].conn in adapters && Writable(adapters[ls[0].conn]) then
        [Write(ls[0].conn, data)] + rest
      else rest
  }

  /** The window changes the `resize` handlers in `ls` make for a message
      from `c`: each handler of `c` whose stream is not destroyed issues one. */
  function Resizes(ls: seq<Listener>, adapters: map<ConnId, Adapter>, c: ClientId, rows: int, cols: int): (ops: seq<RemoteOp>)
    ensures |ops| <= |ls|
    ensures forall op :: op in ops ==>
      op == SetWindow(op.conn, rows, cols) && Listener(c, op.conn) in ls && op.conn in adapters && Writable(adapters[op.conn])
    ensures forall i :: 0 <= i < |ls| && ls[i].client == c && ls[i].conn in adapters && Writable(adapters[ls[i].conn]) ==>
      SetWindow(ls[i].conn, rows, cols) in ops
    ensures DistinctConns(ls) ==> forall i, j :: 0 <= i < j < |ops| ==> ops[i].conn != ops[j].conn
  {
    if ls == [] then []
    else
      var rest := Resizes(ls[1..], adapters, c, rows, cols);
      if ls[0].client == c && ls[0].conn in adapters && Writable(adapters[ls[0].conn]) then
        [SetWindow(ls[0].conn, rows, cols)] + rest
      else rest
  }

  /** An `input` message from `c`: forwarded to every open shell stream and
      every Telnet socket of `c` that is not destroyed, and to nothing else. */
  function OnInput(s: State, c: ClientId, data: string): (r: State)
    ensures Inv(s) ==> Inv(r)
    ensures r.connections == s.connections && r.adapters == s.adapters && r.emitted == s.emitted
    ensures HandlersKept(s, r)
    ensures s.remote <= r.remote
    ensures Inv(s) ==> forall op :: op in r.remote[|s.remote|..] ==>
      && op == Write(op.conn, data)
      && op.conn in s.adapters
      && s.adapters[op.conn].owner == c
      && Writable(s.adapters[op.conn])
      && (s.adapters[op.conn].SshClient? ==> s.adapters[op.conn].phase == ShellOpen)
    ensures forall l :: l in s.inputListeners && l.client == c && l.conn in s.adapters && Writable(s.adapters[l.conn]) ==>
      Write(l.conn, data) in r.remote[|s.remote|..]
    ensures Inv(s) ==> forall i, j :: |s.remote| <= i < j < |r.remote| ==> r.remote[i].conn != r.remote[j].conn
  {
    var ops := Writes(s.inputListeners, s.adapters, c, data);
    s.(remote := s.remote + ops)
  }

  /** A `resize` message from `c`: reaches only SSH shells of `c` that are
      open and not destroyed; a Telnet socket never receives one. */
  function OnResize(s: State, c: ClientId, rows: int, cols: int): (r: State)
    ensures Inv(s) ==> Inv(r)
    ensures r.connections == s.connections && r.adapters == s.adapters && r.emitted == s.emitted
    ensures HandlersKept(s, r)
    ensures s.remote <= r.remote
    ensures Inv(s) ==> forall op :: op in r.remote[|s.remote|..] ==>
      && op == SetWindow(op.conn, rows, cols)
      && op.conn in s.adapters
      && s.adapters[op.conn].owner == c
      && s.adapters[op.conn].SshClient?
      && s.adapters[op.conn].phase == ShellOpen
      && !s.adapters[op.conn].streamDestroyed
    ensures forall l :: l in s.resizeListeners && l.client == c && l.conn in s.adapters && Writable(s.adapters[l.conn]) ==>
      SetWindow(l.conn, rows, cols) in r.remote[|s.remote|..]
    ensures Inv(s) ==> forall i, j :: |s.remote| <= i < j < |r.remote| ==> r.remote[i].conn != r.remote[j].conn
  {
    var ops := Resizes(s.resizeListeners, s.adapters, c, rows, cols);
    s.(remote := s.remote + ops)
  }

  // ---------------------------------------------------------------------
  // disconnect

  /** `disconnect(connectionId)`: with no entry, nothing happens. Otherwise
      the SSH stream and then the connection are ended, or the Telnet socket
      is destroyed, and the entry is deleted. No event is emitted here: the
      `disconnected` status comes, if at all, from the library's later
      `close`/`end` callbacks. */
  function Disconnect(s: State, c: ClientId): (r: State)
    ensures Inv(s) ==> Inv(r)
    ensures HandlersKept(s, r)
    ensures c !in r.connections
    ensures r.connections.Keys == s.connections.Keys - {c}
    ensures forall c' :: c' in r.connections ==> r.connections[c'] == s.connections[c']
    ensures r.emitted == s.emitted
    ensures c !in s.connections ==> r == s
    ensures c in s.connections && s.connections[c].kind == Ssh ==>
      && r.remote == s.remote + [EndStream(s.connections[c].conn), EndConnection(s.connections[c].conn)]
      && r.adapters == s.adapters
    ensures Inv(s) && c in s.connections && s.connections[c].kind == Telnet ==>
      && r.remote == s.remote + [DestroySocket(s.connections[c].conn)]
      && s.connections[c].conn in r.adapters && !Writable(r.adapters[s.connections[c].conn])
      && OthersKept(s, r, s.connections[c].conn)
  {
    if c !in s.connections then s
    else
      var e := s.connections[c];
      var s1 := match e.kind
        case Ssh => s.(remote := s.remote + [EndStream(e.conn), EndConnection(e.conn)])
        case Telnet =>
          var adapters :=
            if e.conn in s.adapters && s.adapters[e.conn].TelnetSocket?
            then s.adapters[e.conn := s.adapters[e.conn].(destroyed := true)]
            else s.adapters;
          s.(adapters := adapters, remote := s.remote + [DestroySocket(e.conn)]);
      var r := s1.(connections := s.connections - {c});
      r
  }

  /** Disconnecting twice is the same as disconnecting once. */
  lemma DisconnectIdempotent(s: State, c: ClientId)
    ensures Disconnect(Disconnect(s, c), c) == Disconnect(s, c)
  {
  }

  /** The initial manager is well formed. */
  lemma InitInv()
    ensures Inv(Init)
  {
  }
}

=== FILE: observations.dfy ===
/**
 Behaviour the gateway code actually has where a tidier design would differ.
 Each lemma states what the code does; none of these is a guarantee the
 gateway is meant to give.
 */
module Observations {
  import opened Optional
  import opened HostPolicy
  import opened Channel
  import opened Manager
  import opened Dispatch

  /** `connected` is reported when the SSH transport is ready, before any
      shell exists and before anything is registered for the client. */
  lemma ConnectedBeforeShell(s: State, k: ConnId)
    requires Inv(s)
    requires k in s.adapters && s.adapters[k] == SshClient(s.adapters[k].owner, Dialing, false, false)
    requires s.adapters[k].owner !in s.connections
    ensures var r := OnSshReady(s, k);
      && r.emitted[|r.emitted| - 1] == Emission(s.adapters[k].owner, ConnectionStatus(Connected(Ssh)))
      && s.adapters[k].owner !in r.connections
  {
  }

  /** A client that disconnects while its SSH connect is still in flight
      cancels nothing: the registry has no entry yet, so `disconnect` does
      nothing, and the library's later `ready` still reports `connected`. */
  lemma DisconnectDoesNotCancelDial(cfg: Config, s: State, c: ClientId, req: SshRequest)
    requires Inv(s) && s.fault.None?
    requires c !in s.connections
    requires IsHostAllowed(cfg, req.host, "ssh") && req.syncError.None?
    ensures var k := s.nextConn;
      var s1 := Step(cfg, s, FromClient(c, ConnectSsh(req)));
      var s2 := Step(cfg, s1, FromClient(c, ForceDisconnect));
      var r := Step(cfg, s2, FromLibrary(k, SshReady));
      && r.emitted == s.emitted + [Emission(c, ConnectionStatus(Connected(Ssh)))]
      && r.remote == s.remote + [Dial(k, Ssh, req.host, EffectivePort(req.port, SshDefaultPort)), OpenShell(k)]
  {
  }

  /** A second SSH session for a client that already has one overwrites the
      registry entry without touching the first connection: no library call
      ends it, and client input is then written to both. */
  lemma SecondConnectLeavesFirstLive(s: State, k: ConnId, data: string)
    requires Inv(s)
    requires k in s.adapters && s.adapters[k].SshClient? && s.adapters[k].phase == AwaitingShell
    requires s.adapters[k].owner in s.connections && s.connections[s.adapters[k].owner].kind == Ssh
    ensures var c := s.adapters[k].owner;
      var first := s.connections[c].conn;
      var s1 := OnShell(s, k, None);
      var s2 := OnInput(s1, c, data);
      && first != k
      && s1.connections[c] == Entry(Ssh, k)
      && s1.remote == s.remote
      && first in s1.adapters && s1.adapters[first] == s.adapters[first]
      && Write(first, data) in s2.remote[|s1.remote|..]
      && Write(k, data) in s2.remote[|s1.remote|..]
  {
  }

  /** The `close` of an old SSH stream deletes its owner's entry even when
      that entry now belongs to a newer connection, which stays open. */
  lemma StaleCloseDeletesNewerEntry(s: State, k: ConnId)
    requires Inv(s)
    requires k in s.adapters && s.adapters[k].SshClient? && s.adapters[k].phase == ShellOpen && !s.adapters[k].streamDestroyed
    requires s.adapters[k].owner in s.connections && s.connections[s.adapters[k].owner].conn != k
    ensures var r := OnStreamClose(s, k);
      var newer := s.connections[s.adapters[k].owner].conn;
      && s.adapters[k].owner !in r.connections
      && newer in r.adapters && r.adapters[newer] == s.adapters[newer]
      && r.remote == s.remote
  {
  }

  /** Stream `close` followed by connection `end` reports `disconnected`
      twice to the same client. */
  lemma DisconnectedReportedTwice(s: State, k: ConnId)
    requires k in s.adapters && s.adapters[k].SshClient? && s.adapters[k].phase == ShellOpen
    requires !s.adapters[k].streamDestroyed && !s.adapters[k].ended
    ensures var c := s.adapters[k].owner;
      OnSshEnd(OnStreamClose(s, k), k).emitted
        == s.emitted + [Emission(c, ConnectionStatus(Disconnected)), Emission(c, ConnectionStatus(Disconnected))]
  {
  }

  /** A Telnet socket's `input` handler is installed before the connect
      callback, so input sent while the socket is still connecting is
      written to it. */
  lemma TelnetInputBeforeConnect(s: State, c: ClientId, req: TelnetRequest, data: string)
    requires Inv(s)
    requires ValidPort(EffectivePort(req.port, TelnetDefaultPort))
    ensures var s1 := CreateTelnet(s, c, req);
      var r := OnInput(s1, c, data);
      Write(s.nextConn, data) in r.remote[|s1.remote|..]
  {
  }

  /** `disconnect` only ends an SSH stream; it does not destroy it, and the
      stream's `input` handler checks only `destroyed`, so the next input
      after `disconnect` still reaches `stream.write`. */
  lemma InputAfterSshDisconnectStillWritten(s: State, c: ClientId, data: string)
    requires Inv(s)
    requires c in s.connections && s.connections[c].kind == Ssh
    ensures var k := s.connections[c].conn;
      var s1 := Disconnect(s, c);
      var r := OnInput(s1, c, data);
      && EndStream(k) in s1.remote
      && Write(k, data) in r.remote[|s1.remote|..]
  {
  }

  /** An allowed Telnet request for port 70000 makes `connect` throw: no
      socket is dialled, no `input` handler is installed, and since the
      exception escapes the handler, later input has no effect at all. */
  lemma TelnetBadPortHalts(cfg: Config, s: State, c: ClientId, host: string, data: string)
    requires s.fault.None?
    requires IsHostAllowed(cfg, host, "telnet")
    ensures var s1 := Step(cfg, s, FromClient(c, ConnectTelnet(TelnetRequest(host, Some(70000)))));
      && s1.fault == Some(BadPort(70000))
      && s1.remote == s.remote
      && s1.inputListeners == s.inputListeners
      && Step(cfg, s1, FromClient(c, Input(data))) == s1
  {
  }

  /** The Telnet counterpart: the `close` of an old socket deletes its
      owner's entry even when that entry now belongs to a newer connection,
      which stays open. */
  lemma StaleTelnetCloseDeletesNewerEntry(s: State, k: ConnId)
    requires Inv(s)
    requires k in s.adapters && s.adapters[k].TelnetSocket? && !s.adapters[k].closed
    requires s.adapters[k].owner in s.connections && s.connections[s.adapters[k].owner].conn != k
    ensures var r := OnTelnetClose(s, k);
      var newer := s.connections[s.adapters[k].owner].conn;
      && s.adapters[k].owner !in r.connections
      && newer in r.adapters && r.adapters[newer] == s.adapters[newer]
      && r.remote == s.remote
  {
  }

  /** A client that already has an SSH session and disconnects while a new
      SSH connect is in flight gets the earlier session ended, but the new
      dial goes on: its `ready` still reports `connected`. */
  lemma DisconnectDuringDialEndsEarlierSession(cfg: Config, s: State, c: ClientId, req: SshRequest)
    requires Inv(s) && s.fault.None?
    requires c in s.connections && s.connections[c].kind == Ssh
    requires IsHostAllowed(cfg, req.host, "ssh") && req.syncError.None?
    ensures var k := s.nextConn;
      var earlier := s.connections[c].conn;
      var s1 := Step(cfg, s, FromClient(c, ConnectSsh(req)));
      var s2 := Step(cfg, s1, FromClient(c, ForceDisconnect));
      var r := Step(cfg, s2, FromLibrary(k, SshReady));
      && r.emitted == s.emitted + [Emission(c, ConnectionStatus(Connected(Ssh)))]
      && r.remote == s.remote + [Dial(k, Ssh, req.host, EffectivePort(req.port, SshDefaultPort)),
                                 EndStream(earlier), EndConnection(earlier), OpenShell(k)]
      && c !in r.connections
  {
  }
}

=== FILE: optional.dfy ===
/** A value that may be absent: the model's stand-in for an optional JSON
    field or a callback argument that may be `undefined`. */
module Optional {

  datatype Option<+T> = None | Some(value: T)

}
